=== FILE: README.md ===
# Seq appender correlation cache and policy, in Dafny

This project models the sequential core of a log4j2 appender that ships log
events to a Seq server. The core has two parts:

- **`SeqAppenderCache`** is a time-to-live cache. It maps a key to an entry that holds a value and the
  millisecond instant of its last write or read. `put` stamps a fresh entry. `get` returns the value
  and refreshes the stamp. `remove` deletes the entry. `size` counts the entries. `cleanup` evicts every
  entry whose stamp lies more than the time-to-live before the current instant. A daemon thread runs
  `cleanup` every few seconds, but only when both the time-to-live and the sweep interval are positive.
- **`SeqAppender`** holds the correlation logic around that cache. It covers:
  - the constructor's normalisation of the correlation property, the cache time and `IsCache`;
  - the per-event correlation policy of `append`, which keeps one correlation id per thread in a shared
    cache plus one shared `CorrelationId` cell;
  - the correlation and context part of `getLog`: which correlation id an event emits, and how context
    keys are copied under their `toPascalCase` names;
  - the case-insensitive `HasKey`.

The model has no clock, no random source and no Unicode tables. Each operation takes the current instant
as `now: Long`. It takes the id `UUID.randomUUID()` would produce as `newId`. It takes the Java character
services (`isSpaceChar`, `toTitleCase`, `toUpperCase`, `toLowerCase`) as a `CharClass` of arbitrary total
functions, so every result holds whatever those tables say. Correlation values are `Ref`s, compared by
identity, because the source compares them with `!=` on references. `null` is `None`.

Files:

- `wrappers.dfy`: `Option`.
- `java_ints.dfy`: Java `int`/`long` ranges and `long` wrap-around.
- `seq_appender_cache.dfy`: the cache.
- `seq_appender_cache_properties.dfy`: lemmas about the cache.
- `java_text.dfy`: `equalsIgnoreCase` and `toPascalCase`.
- `seq_appender.dfy`: the appender.
- `seq_appender_properties.dfy`: lemmas about the appender.

In these details the model follows the code:

- The sweep compares `now > timeToLive + lastAccessed`, computed in wrapping `long` arithmetic. It does not
  compute `now - lastAccessed > ttl`. The two agree whenever the sum does not overflow.
- An explicit `cleanup` ignores the sign of the time-to-live. A time-to-live of zero only stops the
  sweeper thread from being started (`CleanupIgnoresDisabledTtl`).
- The policy's "event carries a correlation value" test is the case-insensitive `HasKey`. The value,
  however, is read with an exact-key `get`. So an event can count as carrying the property while its value
  is null (`CaseMismatchClearsCachedId`).
- The cache can hold null values, and a `get` that finds one returns null like a miss.

## Model

| member | source | states |
|---|---|---|
| JavaInts.WrapLong | src/com/mattmofdoom/logging/log4j2/seqappender/SeqAppenderCache.java:25 | A `long` result is congruent to the exact result modulo 2^64 and equals it when the exact result fits in a `long` |
| JavaInts.AddLong | src/com/mattmofdoom/logging/log4j2/seqappender/SeqAppenderCache.java:84 | A `long` sum is congruent to the exact sum modulo 2^64, equals it when it fits, and agrees with the general wrap-around |
| SeqAppenderCache.New | src/com/mattmofdoom/logging/log4j2/seqappender/SeqAppenderCache.java:24-43 | A new cache is empty; the sweeper is started iff time-to-live and interval (seconds) are both positive; without overflow the stored time-to-live is seconds times 1000 |
| SeqAppenderCache.Put | src/com/mattmofdoom/logging/log4j2/seqappender/SeqAppenderCache.java:46-48 | After `put(k, v, now)`, `k` holds `v` stamped `now`; every other key and the configuration are unchanged |
| SeqAppenderCache.Get | src/com/mattmofdoom/logging/log4j2/seqappender/SeqAppenderCache.java:50-59 | A miss returns null and leaves the cache identical; a hit returns the stored value, keeps it, sets only that entry's stamp to `now`, and changes no other key |
| SeqAppenderCache.Remove | src/com/mattmofdoom/logging/log4j2/seqappender/SeqAppenderCache.java:61-63 | After `remove(k)` the key is absent and every other key keeps its value and stamp |
| SeqAppenderCache.Cleanup | src/com/mattmofdoom/logging/log4j2/seqappender/SeqAppenderCache.java:70-95 | A key survives iff it was present and `now > ttl + lastAccessed` (in `long` arithmetic) is false; survivors keep value and stamp; the configuration is unchanged |
| SeqAppenderCache.SweeperTick | src/com/mattmofdoom/logging/log4j2/seqappender/SeqAppenderCache.java:29-38 | A wake-up keeps the configuration; an entry is evicted iff the constructor started the thread and the entry is expired; every other entry is kept unchanged |
| SeqAppenderCache.CollectExpired | src/com/mattmofdoom/logging/log4j2/seqappender/SeqAppenderCache.java:73-87 | The first loop lists a key iff it is present and its entry is expired |
| SeqAppenderCache.RemoveKeys | src/com/mattmofdoom/logging/log4j2/seqappender/SeqAppenderCache.java:90-94 | The second loop keeps a key iff it was present and not listed, and keeps those entries unchanged |
| SeqAppenderCache.CleanupInTwoPasses | src/com/mattmofdoom/logging/log4j2/seqappender/SeqAppenderCache.java:73-94 | The source's collect-then-remove loops produce exactly the sweep's result |
| SeqAppenderCacheProperties.ValueSurvivesOtherCalls | src/com/mattmofdoom/logging/log4j2/seqappender/SeqAppenderCache.java:46-63 | Any run of calls that does not put, remove or sweep a key keeps that key's value |
| SeqAppenderCacheProperties.PutThenGet | tests/SeqAppenderTest.java:43-45 | Round trip: after `put(k, v)`, `get(k)` returns `v`, even after any calls on other keys and any reads in between |
| SeqAppenderCacheProperties.CallOnOtherKeyIsInvisible | src/com/mattmofdoom/logging/log4j2/seqappender/SeqAppenderCache.java:46-63 | A put, get or remove on one key leaves every other key's entry as it was (no cross-contamination) |
| SeqAppenderCacheProperties.RemoveThenGet | tests/SeqAppenderTest.java:46-48 | After `remove(k)`, `get(k)` returns null and changes nothing |
| SeqAppenderCacheProperties.PutSize | src/com/mattmofdoom/logging/log4j2/seqappender/SeqAppenderCache.java:46-68 | `put` grows the map by one entry iff the key was absent; `size()` then grows by one until it reaches the largest Java `int`, and is unchanged when the key was present |
| SeqAppenderCacheProperties.RemoveSize | src/com/mattmofdoom/logging/log4j2/seqappender/SeqAppenderCache.java:61-68 | `remove` shrinks the map by one entry iff the key was present; `size()` never grows, drops by one when the key was present and the count fit in an `int`, and is unchanged otherwise |
| SeqAppenderCacheProperties.CleanupNeverGrows | src/com/mattmofdoom/logging/log4j2/seqappender/SeqAppenderCache.java:84-92 | A sweep never increases the entry count or `size()` |
| SeqAppenderCacheProperties.SubsetCardinality | src/com/mattmofdoom/logging/log4j2/seqappender/SeqAppenderCache.java:90-92 | Removing keys cannot increase the number of keys |
| SeqAppenderCacheProperties.CleanupIdempotent | src/com/mattmofdoom/logging/log4j2/seqappender/SeqAppenderCache.java:84-92 | Two sweeps at the same instant give the same cache as one |
| SeqAppenderCacheProperties.LaterCleanupSubsumes | src/com/mattmofdoom/logging/log4j2/seqappender/SeqAppenderCache.java:84-92 | A sweep, then a sweep at a later instant, equals the later sweep alone |
| SeqAppenderCacheProperties.EvictionBoundary | src/com/mattmofdoom/logging/log4j2/seqappender/SeqAppenderCache.java:84 | The test is strict: an entry exactly `ttl` old survives, and one a millisecond older is evicted |
| SeqAppenderCacheProperties.ReadKeepsAlive | src/com/mattmofdoom/logging/log4j2/seqappender/SeqAppenderCache.java:55-57 | An entry read at `g` survives, with its value, every sweep up to `g + ttl` |
| SeqAppenderCacheProperties.FirstWakeUpAfter | src/com/mattmofdoom/logging/log4j2/seqappender/SeqAppenderCache.java:32-38 | The first wake-up of a periodic sweeper after a deadline comes within one period of it |
| SeqAppenderCacheProperties.ExpiredByNextWakeUp | src/com/mattmofdoom/logging/log4j2/seqappender/SeqAppenderCache.java:31-38 | An unread entry stamped `t` is evicted by the first wake-up after `t + ttl`, which is at most one interval later when wake-ups fall exactly every interval |
| SeqAppenderCacheProperties.TwoSecondScenario | tests/SeqAppenderTest.java:52-60 | With ttl and interval 2 s, a value put and read at `t` is gone after a wake-up later than `t + 2000`, and still present at one no later than that |
| SeqAppenderCacheProperties.NoSweeperNoExpiry | src/com/mattmofdoom/logging/log4j2/seqappender/SeqAppenderCache.java:29 | Without a sweeper thread, any number of wake-up instants leaves the cache unchanged |
| SeqAppenderCacheProperties.ZeroTtlNeverExpires | src/com/mattmofdoom/logging/log4j2/seqappender/SeqAppenderCache.java:24-29 | With a zero time-to-live, a stored value is still returned after any passage of time |
| SeqAppenderCacheProperties.CleanupIgnoresDisabledTtl | src/com/mattmofdoom/logging/log4j2/seqappender/SeqAppenderCache.java:84 | An explicit sweep on a zero-ttl cache still evicts every entry older than `now` |
| SeqAppenderCacheProperties.SweeperImpliesPositiveTtl | src/com/mattmofdoom/logging/log4j2/seqappender/SeqAppenderCache.java:25-29 | For `int` seconds, a started sweeper always has a positive millisecond time-to-live |
| JavaText.EqualsIgnoreCaseReflexiveSymmetric | src/com/mattmofdoom/logging/log4j2/seqappender/SeqAppender.java:282 | Case-insensitive key equality is reflexive and symmetric for any case tables |
| JavaText.Capitalize | src/com/mattmofdoom/logging/log4j2/seqappender/SeqAppender.java:309-319 | The scan keeps the length. Position `i` is title-cased iff it is not a space and is first (with the flag set) or follows a space; every other character is copied |
| JavaText.ToPascalCase | src/com/mattmofdoom/logging/log4j2/seqappender/SeqAppender.java:301-322 | null gives null and "" gives ""; otherwise the result has the input's length, and each word's first non-space character is title-cased and nothing else changes |
| JavaText.PascalKey | src/com/mattmofdoom/logging/log4j2/seqappender/SeqAppender.java:274 | A field name has the length of its context key, and each of its characters is that key's character title-cased at a word start and copied otherwise |
| JavaText.PascalKeepsSpaces | src/com/mattmofdoom/logging/log4j2/seqappender/SeqAppender.java:309-319 | If title-casing preserves spaceness, the conversion keeps every word boundary in place |
| JavaText.PascalIdempotent | src/com/mattmofdoom/logging/log4j2/seqappender/SeqAppender.java:301-322 | If title-casing preserves spaceness and is idempotent, converting twice equals converting once |
| JavaText.AsciiPascalExample | src/com/mattmofdoom/logging/log4j2/seqappender/SeqAppender.java:301-322 | With ASCII classifiers, "user id" becomes "User Id" |
| JavaText.AsciiIgnoreCaseExample | src/com/mattmofdoom/logging/log4j2/seqappender/SeqAppender.java:282 | With ASCII classifiers, "CorrelationId" equals "correlationId" ignoring case |
| SeqAppender.ConfigProperties | src/com/mattmofdoom/logging/log4j2/seqappender/SeqAppender.java:60-62 | The property map has exactly the configured names, each mapped to the value of the last property with that name |
| SeqAppender.PutKeepsLastValues | src/com/mattmofdoom/logging/log4j2/seqappender/SeqAppender.java:60-62 | One more put in the loop keeps the last-value property |
| SeqAppender.Construct | src/com/mattmofdoom/logging/log4j2/seqappender/SeqAppender.java:39-62 | Null property becomes "correlationId"; `IsCache` iff correlation is included and cache time != 0; negative time becomes 600; a caching appender gets a fresh cache with interval 5 and others leave the shared cells alone; the result is consistent |
| SeqAppender.HasKey | src/com/mattmofdoom/logging/log4j2/seqappender/SeqAppender.java:280-287 | The scan returns true iff some key of the map equals the value ignoring case |
| SeqAppender.Correlate | src/com/mattmofdoom/logging/log4j2/seqappender/SeqAppender.java:189-208 | The policy for one event, listed below this table |
| SeqAppender.EmitCorrelation | src/com/mattmofdoom/logging/log4j2/seqappender/SeqAppender.java:263-269 | No field without correlation. A caching appender emits the thread's cached value and refreshes only that entry's stamp. Otherwise the shared `CorrelationId` is emitted and nothing changes |
| SeqAppender.CopyContext | src/com/mattmofdoom/logging/log4j2/seqappender/SeqAppender.java:270-275 | Every context key not equal to "correlationid" ignoring case appears under its Pascal-case name, with the value of the last key producing that name. Fields no key produces keep their values. No other field appears |
| SeqAppender.CopyOneMore | src/com/mattmofdoom/logging/log4j2/seqappender/SeqAppender.java:272-275 | One more iteration of the copy loop extends the copy invariant |
| SeqAppender.ProducersOfPrefix | src/com/mattmofdoom/logging/log4j2/seqappender/SeqAppender.java:272-275 | A field name produced by the keys copied so far stays produced after one more key, and a copied key produces its own name |
| SeqAppender.CopyKeepsNames | src/com/mattmofdoom/logging/log4j2/seqappender/SeqAppender.java:272-275 | One more iteration keeps every field name, adds the copied key's name, and adds no other name |
| SeqAppender.CopyKeepsUnproduced | src/com/mattmofdoom/logging/log4j2/seqappender/SeqAppender.java:272-275 | A field that no copied key produces keeps its value through one more iteration |
| SeqAppender.CopyLastValues | src/com/mattmofdoom/logging/log4j2/seqappender/SeqAppender.java:272-275 | After one more iteration, each name holds the value of the last key producing it |
| SeqAppender.EventFields | src/com/mattmofdoom/logging/log4j2/seqappender/SeqAppender.java:253-275 | An event's fields are the configured properties, plus the emitted correlation id unless a context key produces "CorrelationId", plus the copied context keys, and nothing else |
| SeqAppender.GetLogAsWritten | src/com/mattmofdoom/logging/log4j2/seqappender/SeqAppender.java:254-275 | As written, the emitted fields become the appender's own property map and nothing else of the appender changes, so every copied context field stays in the appender; consistency is kept |
| SeqAppender.GetLog | src/com/mattmofdoom/logging/log4j2/seqappender/SeqAppender.java:254-275 | Corrected: the appender is unchanged. Every configured property and every copied context key's Pascal-case name is a field, and each field comes from the configuration, the correlation id or this event's context. A configured property that no context key or correlation field overrides keeps its configured value |
| SeqAppender.Append | src/com/mattmofdoom/logging/log4j2/seqappender/SeqAppender.java:177-230 | One event end to end as written, including the two caught `IOException` exits; listed below this table |
| SeqAppender.AppendCorrected | src/com/mattmofdoom/logging/log4j2/seqappender/SeqAppender.java:177-230 | One event end to end with the corrected `getLog`: the same exits and correlation results. Fields are built iff both connection steps succeed. They then hold every configured property, with its configured value unless overridden, and every copied context key, and nothing else |
| SeqAppenderProperties.ConstructedCacheSweeps | src/com/mattmofdoom/logging/log4j2/seqappender/SeqAppender.java:48-58 | A caching appender's new cache is empty, has its sweeper running and has ttl = cache time × 1000 in (0, MaxInt × 1000]; this is 600000 ms when a negative time was configured |
| SeqAppenderProperties.ExactKeyIsPresent | src/com/mattmofdoom/logging/log4j2/seqappender/SeqAppender.java:189-191 | A key present exactly is present ignoring case, so a non-null incoming value implies the property flag |
| SeqAppenderProperties.CarriedValueIsEmitted | src/com/mattmofdoom/logging/log4j2/seqappender/SeqAppender.java:189-196 | A caching appender emits exactly the non-null value an event carries under the property |
| SeqAppenderProperties.RepeatedCarrierBecomesShared | src/com/mattmofdoom/logging/log4j2/seqappender/SeqAppender.java:191-195 | The same value carried by two consecutive events of one thread becomes the shared `CorrelationId` and stays cached, with no sweeper wake-up evicting the thread's entry in between |
| SeqAppenderProperties.IdleThreadGetsNewIdAfterEviction | src/com/mattmofdoom/logging/log4j2/seqappender/SeqAppenderCache.java:29-38 | A wake-up that finds a thread's entry expired evicts it; the thread's next event without the property (SeqAppender.java lines 199-200) then caches the new id |
| SeqAppenderProperties.FirstUncarriedEventGetsNewId | src/com/mattmofdoom/logging/log4j2/seqappender/SeqAppender.java:198-201 | A thread with no cached value, on an event without the property, caches the new id and emits it |
| SeqAppenderProperties.SharedIdIsNotTheCachedId | src/com/mattmofdoom/logging/log4j2/seqappender/SeqAppender.java:199-205 | When no shared id exists yet, the shared `CorrelationId` becomes the new id rather than the thread's cached value |
| SeqAppenderProperties.CorrelateAll | src/com/mattmofdoom/logging/log4j2/seqappender/SeqAppender.java:186-209 | Running the policy over a sequence of events keeps the appender and shared cells consistent |
| SeqAppenderProperties.ThreadKeepsIdWithoutProperty | src/com/mattmofdoom/logging/log4j2/seqappender/SeqAppender.java:197-208 | A thread's cached id survives any run of policy steps in which its own events carry no property, with no sweeper wake-up evicting the thread's entry in between |
| SeqAppenderProperties.NonCachingNeverCorrelates | src/com/mattmofdoom/logging/log4j2/seqappender/SeqAppender.java:263-268 | A non-caching appender never changes the shared cells and always emits the initial shared `CorrelationId` |
| SeqAppenderProperties.CaseMismatchClearsCachedId | src/com/mattmofdoom/logging/log4j2/seqappender/SeqAppender.java:189-192 | Context "CorrelationId" with property "correlationId": the flag holds but the value is null, so the cached id is overwritten with null and null is emitted |
| SeqAppenderProperties.GetLogAsWrittenLeaksContext | src/com/mattmofdoom/logging/log4j2/seqappender/SeqAppender.java:254-274 | As written, a field copied from one event's context reappears in the next event, whose context is empty |
| SeqAppenderProperties.GetLogFieldsComeFromCurrentEvent | src/com/mattmofdoom/logging/log4j2/seqappender/SeqAppender.java:254-275 | Corrected: over two events, the second event's fields come only from the configuration, the correlation id and its own context, and a configured property not overridden by these holds its configured value, not one from the first event |

Three members are helpers without rows of their own:
- `SeqAppenderCache.Size` is `ConcurrentHashMap.size()`. What it means for callers is stated in `PutSize`,
  `RemoveSize` and `CleanupNeverGrows`.
- `SeqAppender.ContextGet` is the exact-key `Map.get`.
- `SeqAppender.OrNull` is the null-returning `Cache.get`.

What `ContextGet` and `OrNull` mean for the policy is stated in `ExactKeyIsPresent`, `CarriedValueIsEmitted`,
`CaseMismatchClearsCachedId` and `Append`.

`SeqAppender.Correlate` states the correlation policy for one event:

- Without a cache, nothing changes.
- Only the event's thread's entry can change.
- With the property:
  - if the incoming value is not the very object cached, the entry becomes the incoming value stamped
    `now`;
  - otherwise it becomes the shared `CorrelationId`, and the entry keeps its value with a refreshed stamp;
  - a non-null incoming value is what ends up cached.
- Without the property:
  - if nothing non-null is cached, the new id is cached;
  - otherwise the entry keeps its value with a refreshed stamp, and the shared id becomes the new id if it
    was null.

`SeqAppender.Append` states what one event does end to end, as the code is written. The HTTP exchange
enters through two flags. Each flag says whether one step that can throw a caught `IOException` succeeded:

- `urlOk` is false when building the URL or opening the connection fails (lines 179-180). The whole
  event is then skipped: the appender and the shared cells are unchanged, and no fields are built.
- `connected` is false when `getOutputStream` fails (line 212). The correlation policy has then run, but
  `getLog` has not. The appender is unchanged, no emission stamp is refreshed, and no fields are built.

When both succeed:

- The appender's property map becomes the event's fields: the configured properties, plus every copied
  context key under its Pascal-case name. Nothing else of the appender changes.
- The appender and the shared cells stay consistent.
- Without correlation, the shared cells are untouched.
- Only the event's thread's cache entry changes.
- When the event carries a non-null value under the exact property name, that value is cached and emitted.
- When the event has no property and the thread has a cached value, that value is kept and emitted.

The correlation results hold whenever `urlOk` holds, whether or not the connection succeeds.

`SeqAppender.AppendCorrected` states the same exits and correlation results for `append` with the
corrected `getLog`, which leaves the appender unchanged.

## Left out

- HTTP: the connection, request headers, response-code check and streams of `append` are network I/O.
  The two steps whose failure changes what `append` does to state, at lines 179-180 and at line 212, are
  the `urlOk` and `connected` inputs. A failure after `getLog`, such as in serialisation, the write or the
  response-code check, happens after every state change, so it is not distinguished.
- Jackson: the JSON serialisation and the `SeqLog`/`SeqEvents` classes are a foreign library and plain
  data holders.
- Basic fields: the level, timestamp, message and the `AppName`, `MachineName`, `ThreadId`, `MethodName`
  and `ProcessName` properties are not modelled. They come from the log event, the logger and a hostname
  lookup. They are put before the correlation field, so the model's field maps start from the configured
  properties. As a consequence, the code overwrites a configured property named `AppName`, `MachineName`,
  `ThreadId`, `MethodName` or `ProcessName` (lines 255-262). The model keeps its configured value.
- Hostname: the lookup and its caching in `getHostname` are `InetAddress` I/O.
- Stack traces: building the exception string depends on `Throwable.toString` and `StackTraceElement`,
  which are foreign.
- Sweeper thread: the daemon thread, its sleep loop and `Thread.yield` are not modelled. A wake-up is the
  explicit `SweeperTick`, and the wake-up schedule is `FirstWakeUpAfter`.
- Concurrency: `ConcurrentHashMap`'s thread safety and races between a sweep and concurrent reads are not
  modelled. Every operation is atomic and sequential.
- Static aliasing: `Cache` and `CorrelationId` are static and shared by all appender instances. The model
  passes one `Shared` record through every operation instead.
- Clock: `System.currentTimeMillis` becomes the `now` argument. All clock reads within one event use the
  same instant.
- Random ids: `UUID.randomUUID` becomes the `newId` argument. Its freshness is assumed only where a lemma
  needs it (`SharedIdIsNotTheCachedId`).
- Thread-id keys: the cache is keyed by `String.valueOf(threadId)`. The model keys it by the `long` id
  itself, which is equivalent because that conversion is injective.
- Unicode: `Character.isSpaceChar`, `toTitleCase`, `toUpperCase` and `toLowerCase` are arbitrary functions
  in a `CharClass`. The surrogate-pair handling of newer Java versions' `equalsIgnoreCase` is not modelled.
  Strings are sequences of Unicode scalar values, not UTF-16 code units.
- Null checks: the null-entry check in `cleanup` is left out because a `ConcurrentHashMap` never holds null
  entries. A null `properties` array in the constructor is also not modelled.
- Boilerplate: the builder, the plugin factory and the constructor's `System.out` trace are not modelled.
- `Size`: the clamp reproduces `ConcurrentHashMap.size()`, whose code is not part of this model.
- SeqAppenderProperties.ThreadKeepsIdWithoutProperty: covers runs of policy steps only. A run with sweeper
  wake-ups keeps the id only while no wake-up finds the entry expired. `IdleThreadGetsNewIdAfterEviction`
  proves what happens when one does.
- SeqAppenderProperties.RepeatedCarrierBecomesShared: covers two back-to-back policy steps, with no
  sweeper wake-up between them that could evict the thread's entry.
- SeqAppenderCacheProperties.ExpiredByNextWakeUp: the one-interval bound assumes an idealised schedule.
  Wake-ups are assumed to fall exactly at `start + n * interval`. The sleep of line 34 can overshoot, and
  each sweep takes time, so the real wake-ups drift later. The interval is also a free parameter, because
  `Cache` does not record `timerInterval`.

## Findings

| source | as written | input that shows it | evidently intended | confidence | as-written member | corrected member |
|---|---|---|---|---|---|---|
| src/com/mattmofdoom/logging/log4j2/seqappender/SeqAppender.java:254 | `seqEvents.Properties = this.Properties` makes the event's property map the appender's own map, so every field put for one event (copied context keys included) stays in the appender and is sent again with all later events | first event with context `{"user": …}`, second event with an empty context: the second event still carries the `User` field | each event gets a copy of the configured properties, and the appender's map is never modified | medium, not executed | SeqAppenderProperties.GetLogAsWrittenLeaksContext | SeqAppenderProperties.GetLogFieldsComeFromCurrentEvent |

=== FILE: java_ints.dfy ===
/**
 Java's fixed-width integer types. Dafny integers are unbounded, so the
 ranges of `int` and `long`, and the two's-complement wrap-around of `long`
 arithmetic, are written out here.
 */
module JavaInts {

  const MinInt: int := -0x8000_0000
  const MaxInt: int := 0x7fff_ffff
  const MinLong: int := -0x8000_0000_0000_0000
  const MaxLong: int := 0x7fff_ffff_ffff_ffff
  const LongModulus: int := 0x1_0000_0000_0000_0000

  /** A value of Java's 32-bit `int`. */
  type Int = x: int | MinInt <= x <= MaxInt

  /** A value of Java's 64-bit `long`. */
  type Long = x: int | MinLong <= x <= MaxLong

  /** The `long` that two's-complement arithmetic yields for the exact result `x`. */
  function WrapLong(x: int): (r: Long)
    ensures (r - x) % LongModulus == 0
    ensures MinLong <= x <= MaxLong ==> r == x
  {
    var m := (x - MinLong) % LongModulus;
    assert x - MinLong == LongModulus * ((x - MinLong) / LongModulus) + m;
    m + MinLong
  }

  /**
   Java's `a + b` on two `long`s. The exact sum lies within one modulus of the
   `long` range, so at most one correction by 2^64 is needed.
   */
  function AddLong(a: Long, b: Long): (r: Long)
    ensures (r - (a + b)) % LongModulus == 0
    ensures MinLong <= a + b <= MaxLong ==> r == a + b
    ensures r == WrapLong(a + b)
  {
    if a + b > MaxLong then a + b - LongModulus
    else if a + b < MinLong then a + b + LongModulus
    else a + b
  }
}

=== FILE: java_text.dfy ===
/**
 The two string operations of the appender that depend on Unicode character
 classes: Java's `String.equalsIgnoreCase`, used to find the correlation
 property among the context keys, and the `toPascalCase` conversion of
 context keys into field names.

 The Unicode tables behind `Character.isSpaceChar`, `Character.toTitleCase`,
 `Character.toUpperCase` and `Character.toLowerCase` are not modelled: every
 operation takes them as a `CharClass` of arbitrary total functions, so what
 is proved here holds whatever those tables say.
 */
module JavaText {
  import opened Wrappers

  /** The character classifiers and case mappings of `java.lang.Character`. */
  datatype CharClass = CharClass(
    isSpaceChar: char -> bool,
    toTitleCase: char -> char,
    toUpperCase: char -> char,
    toLowerCase: char -> char)

  /**
   Two characters match ignoring case when they are equal, when their upper
   cases are equal, or when the lower cases of their upper cases are equal.
   */
  predicate CharEqualsIgnoreCase(a: char, b: char, cc: CharClass)
  {
    || a == b
    || cc.toUpperCase(a) == cc.toUpperCase(b)
    || cc.toLowerCase(cc.toUpperCase(a)) == cc.toLowerCase(cc.toUpperCase(b))
  }

  /** `s.equalsIgnoreCase(t)` for a non-null `t`: same length and matching characters. */
  predicate EqualsIgnoreCase(s: string, t: string, cc: CharClass)
  {
    |s| == |t| && forall i :: 0 <= i < |s| ==> CharEqualsIgnoreCase(s[i], t[i], cc)
  }

  /** Case-insensitive equality is reflexive and symmetric, whatever the case tables. */
  lemma EqualsIgnoreCaseReflexiveSymmetric(s: string, t: string, cc: CharClass)
    ensures EqualsIgnoreCase(s, s, cc)
    ensures EqualsIgnoreCase(s, t, cc) <==> EqualsIgnoreCase(t, s, cc)
  {
  }

  /**
   Whether a conversion that starts with `convertNext` title-cases the
   character at `i`: the first character is converted if `convertNext` holds,
   any other one if the character before it is a space character.
   */
  predicate StartsWord(s: string, i: int, convertNext: bool, cc: CharClass)
    requires 0 <= i < |s|
  {
    if i == 0 then convertNext else cc.isSpaceChar(s[i - 1])
  }

  /**
   The character at `i` of the converted string: a non-space character that
   starts a word is title-cased, every other character is kept.
   */
  function PascalChar(s: string, i: int, convertNext: bool, cc: CharClass): char
    requires 0 <= i < |s|
  {
    if !cc.isSpaceChar(s[i]) && StartsWord(s, i, convertNext, cc) then cc.toTitleCase(s[i]) else s[i]
  }

  /**
   The character loop of `toPascalCase`, scanning left to right with the flag
   `convertNext`: a space character sets it, a character converted while it is
   set clears it.
   */
  function Capitalize(s: string, convertNext: bool, cc: CharClass): (r: string)
    ensures |r| == |s|
    ensures forall i :: 0 <= i < |s| ==> r[i] == PascalChar(s, i, convertNext, cc)
    decreases |s|
  {
    if |s| == 0 then []
    else
      var rest := s[1..];
      var next := cc.isSpaceChar(s[0]);
      var c := if !next && convertNext then cc.toTitleCase(s[0]) else s[0];
      var tail := Capitalize(rest, next, cc);
      assert forall i :: 1 <= i < |s| ==> PascalChar(rest, i - 1, next, cc) == PascalChar(s, i, convertNext, cc);
      [c] + tail
  }

  /**
   `toPascalCase`: null and the empty string are returned as they are; any
   other string has each word's first non-space character title-cased.
   */
  function ToPascalCase(text: Option<string>, cc: CharClass): (r: Option<string>)
    ensures text.None? ==> r.None?
    ensures text == Some([]) ==> r == text
    ensures text.Some? ==> r.Some? && |r.value| == |text.value|
    ensures text.Some? ==> forall i :: 0 <= i < |text.value| ==> r.value[i] == PascalChar(text.value, i, true, cc)
  {
    match text
    case None => None
    case Some(s) => if |s| == 0 then text else Some(Capitalize(s, true, cc))
  }

  /** A field name: the Pascal-case form of a (non-null) context key. */
  function PascalKey(key: string, cc: CharClass): (r: string)
    ensures |r| == |key|
    ensures forall i :: 0 <= i < |key| ==> r[i] == PascalChar(key, i, true, cc)
  {
    ToPascalCase(Some(key), cc).value
  }

  /** Title-casing maps space characters to space characters and others to others. */
  ghost predicate TitleKeepsSpaces(cc: CharClass)
  {
    forall c :: cc.isSpaceChar(cc.toTitleCase(c)) == cc.isSpaceChar(c)
  }

  /** Title-casing a title-cased character changes nothing. */
  ghost predicate TitleIdempotent(cc: CharClass)
  {
    forall c :: cc.toTitleCase(cc.toTitleCase(c)) == cc.toTitleCase(c)
  }

  /** Where title-casing keeps space characters apart, the conversion keeps every word boundary. */
  lemma PascalKeepsSpaces(s: string, cc: CharClass)
    requires TitleKeepsSpaces(cc)
    ensures forall i :: 0 <= i < |s| ==> (cc.isSpaceChar(PascalKey(s, cc)[i]) <==> cc.isSpaceChar(s[i]))
  {
  }

  /** Where title-casing is also idempotent, converting a converted string changes nothing. */
  lemma PascalIdempotent(s: string, cc: CharClass)
    requires TitleKeepsSpaces(cc) && TitleIdempotent(cc)
    ensures PascalKey(PascalKey(s, cc), cc) == PascalKey(s, cc)
  {
    var once := PascalKey(s, cc);
    var twice := PascalKey(once, cc);
    forall i | 0 <= i < |s|
      ensures twice[i] == once[i]
    {
      assert i > 0 ==> cc.isSpaceChar(once[i - 1]) == cc.isSpaceChar(s[i - 1]);
    }
  }

  /** The upper case of an ASCII letter; every other character is left as it is. */
  function AsciiUpper(c: char): char
  {
    if 'a' <= c <= 'z' then (c as int - 32) as char else c
  }

  /** The lower case of an ASCII letter; every other character is left as it is. */
  function AsciiLower(c: char): char
  {
    if 'A' <= c <= 'Z' then (c as int + 32) as char else c
  }

  /**
   Classifiers that agree with `java.lang.Character` on the ASCII characters,
   where the only space character is U+0020 and title case is upper case.
   */
  const Ascii: CharClass := CharClass(c => c == ' ', AsciiUpper, AsciiUpper, AsciiLower)

  /** On ASCII text every word of a context key is capitalised. */
  lemma AsciiPascalExample()
    ensures PascalKey("user id", Ascii) == "User Id"
  {
    var s := "user id";
    var p := PascalKey(s, Ascii);
    assert p[0] == PascalChar(s, 0, true, Ascii) == 'U';
    assert p[5] == PascalChar(s, 5, true, Ascii) == 'I';
    forall i | i in {1, 2, 3, 4, 6}
      ensures p[i] == PascalChar(s, i, true, Ascii) == s[i]
    {
    }
  }

  /** On ASCII text, keys that differ only in the case of a letter match. */
  lemma AsciiIgnoreCaseExample()
    ensures EqualsIgnoreCase("CorrelationId", "correlationId", Ascii)
  {
    var s := "CorrelationId";
    var t := "correlationId";
    assert CharEqualsIgnoreCase(s[0], t[0], Ascii);
    assert forall i :: 1 <= i < |s| ==> s[i] == t[i];
  }
}

=== FILE: seq_appender.dfy ===
/**
 The correlation logic of the Seq appender: the constructor's normalisation
 of its configuration, the per-event correlation policy of `append`, and the
 part of `getLog` that emits the correlation identifier and copies the
 logging context into the event's fields.

 The appender shares two static cells between all its instances: the
 correlation cache (keyed by thread id) and a single `CorrelationId`. They
 are modelled as one `Shared` value threaded through every operation. The
 clock is an explicit `now` argument and `UUID.randomUUID()` an explicit
 `newId` argument.
 */
module SeqAppender {
  import opened Wrappers
  import opened JavaInts
  import opened JavaText
  import C = SeqAppenderCache

  /**
   A Java String object, known only by its identity: the policy compares
   correlation values with `!=` on references, so two values are the same
   exactly when they are the same object.
   */
  datatype Ref = Ref(address: nat)

  /** A String reference that may be null. */
  type Value = Option<Ref>

  const DefaultCorrelationProperty: string := "correlationId"
  /** Seconds to keep a thread's correlation id when a negative cache time is configured. */
  const DefaultCacheTime: int := 600
  /** Seconds between two sweeps of the correlation cache. */
  const CacheSweepInterval: int := 5
  /** The field under which the correlation id is emitted. */
  const CorrelationIdField: string := "CorrelationId"
  /** The context key (ignoring case) that is not copied into the fields. */
  const SkippedContextKey: string := "correlationid"

  /** A configured property: a name and a value. */
  datatype Property = Property(name: string, value: Value)

  /** The configuration an appender instance keeps after its constructor ran. */
  datatype Appender = Appender(
    correlationProperty: string,
    includeCorrelation: bool,
    isCache: bool,
    cacheTime: Int,
    properties: map<string, Value>)

  /** The correlation cache: thread id to correlation value (possibly null). */
  type CorrelationCache = C.Cache<Long, Value>

  /** The static cells: the cache (null until a caching appender is built) and `CorrelationId`. */
  datatype Shared = Shared(cache: Option<CorrelationCache>, correlationId: Value)

  /** An appender together with the shared cells after its construction. */
  datatype Instance = Instance(appender: Appender, shared: Shared)

  /** What the policy reads from a log event: the thread id and the context map. */
  datatype Event = Event(threadId: Long, context: map<string, Value>)

  /** A caching appender includes correlation and finds the shared cache built. */
  predicate Consistent(a: Appender, s: Shared)
  {
    a.isCache ==> a.includeCorrelation && s.cache.Some?
  }

  /** The index `i` holds the last property in `ps` with its name. */
  ghost predicate LastOfName(ps: seq<Property>, i: int)
    requires 0 <= i < |ps|
  {
    forall j :: i < j < |ps| ==> ps[j].name != ps[i].name
  }

  /** `m` maps exactly the names in `ps`, each to the value of the last property with that name. */
  ghost predicate HoldsLastValues(ps: seq<Property>, m: map<string, Value>)
  {
    && m.Keys == (set p | p in ps :: p.name)
    && forall i :: 0 <= i < |ps| && LastOfName(ps, i) ==> m[ps[i].name] == ps[i].value
  }

  /** The constructor's loop putting the configured properties one after the other into a map. */
  function ConfigProperties(ps: seq<Property>): (m: map<string, Value>)
    ensures m.Keys == set p | p in ps :: p.name
    ensures forall i :: 0 <= i < |ps| && LastOfName(ps, i) ==> m[ps[i].name] == ps[i].value
    decreases |ps|
  {
    if |ps| == 0 then map[]
    else
      var m := ConfigProperties(ps[..|ps| - 1]);
      PutKeepsLastValues(ps, m);
      m[ps[|ps| - 1].name := ps[|ps| - 1].value]
  }

  /** Putting one more property keeps every name at the value of its last property. */
  lemma PutKeepsLastValues(ps: seq<Property>, m: map<string, Value>)
    requires |ps| > 0
    requires HoldsLastValues(ps[..|ps| - 1], m)
    ensures HoldsLastValues(ps, m[ps[|ps| - 1].name := ps[|ps| - 1].value])
  {
    var init := ps[..|ps| - 1];
    var last := ps[|ps| - 1];
    var r := m[last.name := last.value];
    assert forall i :: 0 <= i < |init| ==> init[i] == ps[i];
    assert r.Keys == set p | p in ps :: p.name by {
      assert ps == init + [last];
      assert forall p :: p in ps <==> p in init || p == last;
    }
    forall i | 0 <= i < |ps| && LastOfName(ps, i)
      ensures r[ps[i].name] == ps[i].value
    {
      if i < |ps| - 1 {
        assert init[i] == ps[i];
        assert LastOfName(init, i);
      }
    }
  }

  /**
   The constructor. A null correlation property becomes "correlationId". With
   correlation included, a negative cache time becomes 600 seconds, and a
   positive one builds a new shared cache with a five-second sweep interval and
   makes this a caching appender; otherwise the shared cells are left alone.
   */
  function Construct(cacheTime: Int, correlationProperty: Option<string>, includeCorrelation: bool,
                     properties: seq<Property>, shared: Shared): (r: Instance)
    ensures correlationProperty.None? ==> r.appender.correlationProperty == DefaultCorrelationProperty
    ensures correlationProperty.Some? ==> r.appender.correlationProperty == correlationProperty.value
    ensures r.appender.includeCorrelation == includeCorrelation
    ensures r.appender.isCache <==> includeCorrelation && cacheTime != 0
    ensures r.appender.isCache && cacheTime < 0 ==> r.appender.cacheTime == DefaultCacheTime
    ensures r.appender.isCache && cacheTime > 0 ==> r.appender.cacheTime == cacheTime
    ensures r.appender.isCache ==>
              && r.shared.cache == Some(C.New(r.appender.cacheTime, CacheSweepInterval))
              && r.shared.correlationId == shared.correlationId
    ensures !r.appender.isCache ==> r.shared == shared && r.appender.cacheTime == 0
    ensures r.appender.properties.Keys == set p | p in properties :: p.name
    ensures forall i :: 0 <= i < |properties| && LastOfName(properties, i) ==>
              r.appender.properties[properties[i].name] == properties[i].value
    ensures Consistent(r.appender, r.shared)
  {
    var property := correlationProperty.GetOr(DefaultCorrelationProperty);
    var time := if includeCorrelation && cacheTime < 0 then DefaultCacheTime else cacheTime;
    var isCache := includeCorrelation && time > 0;
    var a := Appender(property, includeCorrelation, isCache, if isCache then time else 0, ConfigProperties(properties));
    if isCache then Instance(a, shared.(cache := Some(C.New(time, CacheSweepInterval))))
    else Instance(a, shared)
  }

  /** Some key of `m` equals `value` ignoring case. */
  predicate ContainsKeyIgnoringCase(m: map<string, Value>, value: string, cc: CharClass)
  {
    exists k :: k in m && EqualsIgnoreCase(k, value, cc)
  }

  /** `HasKey`: scans the context's keys and stops at the first one equal to `value` ignoring case. */
  method HasKey(entries: map<string, Value>, value: string, cc: CharClass) returns (found: bool)
    ensures found <==> ContainsKeyIgnoringCase(entries, value, cc)
  {
    var pending := entries.Keys;
    while pending != {}
      invariant pending <= entries.Keys
      invariant forall k :: k in entries && k !in pending ==> !EqualsIgnoreCase(k, value, cc)
      decreases pending
    {
      var k :| k in pending;
      if EqualsIgnoreCase(k, value, cc) {
        return true;
      }
      pending := pending - {k};
    }
    return false;
  }

  /** `context.get(key)`: the value under exactly `key`, or null. */
  function ContextGet(context: map<string, Value>, key: string): (v: Value)
    ensures key !in context ==> v.None?
    ensures key in context ==> v == context[key]
  {
    if key in context then context[key] else None
  }

  /** What `Cache.get` returns to the appender: null for a missing entry and for a stored null. */
  function OrNull(found: Option<Value>): (v: Value)
    ensures found.None? ==> v.None?
    ensures found.Some? ==> v == found.value
  {
    if found.None? then None else found.value
  }

  /** The entry the shared cache holds for `thread`, if there is a cache and such an entry. */
  function Stored(s: Shared, thread: Long): Option<C.Entry<Value>>
  {
    if s.cache.Some? && thread in s.cache.value.entries then Some(s.cache.value.entries[thread]) else None
  }

  /** The value a `Cache.get(thread)` would return, without its access-time refresh. */
  function CachedValue(s: Shared, thread: Long): Value
  {
    if Stored(s, thread).Some? then Stored(s, thread).value.value else None
  }

  /** From `s` to `s'` the entry of `thread` kept its value and at most had its access time set to `now`. */
  ghost predicate Refreshed(s: Shared, s': Shared, thread: Long, now: Long)
  {
    && (Stored(s, thread).None? <==> Stored(s', thread).None?)
    && (Stored(s, thread).Some? ==> Stored(s', thread) == Some(C.Entry(Stored(s, thread).value.value, now)))
  }

  /** The cache of `s'` differs from that of `s` at most in the entry of `thread`. */
  ghost predicate OnlyThreadChanged(s: Shared, s': Shared, thread: Long)
  {
    s.cache.Some? && s'.cache.Some? && C.SameExcept(s.cache.value, s'.cache.value, thread)
  }

  /**
   The correlation policy of `append` for one event of `thread`, given whether
   the context holds the correlation property (ignoring case) and the value
   stored under exactly that key. Only a caching appender acts.
   - With the property: an incoming value that is not the very object cached
     for the thread replaces the cache entry; the same object becomes the
     shared `CorrelationId`.
   - Without it: a thread with no cached value gets `newId` cached; otherwise,
     if no shared `CorrelationId` exists yet, `newId` becomes it.
   Every cache read refreshes the thread's access time.
   */
  function Correlate(a: Appender, s: Shared, thread: Long, present: bool, incoming: Value,
                     now: Long, newId: Ref): (r: Shared)
    requires Consistent(a, s)
    ensures Consistent(a, r)
    ensures !a.isCache ==> r == s
    ensures a.isCache ==> OnlyThreadChanged(s, r, thread)
    ensures a.isCache && present && incoming != CachedValue(s, thread) ==>
              Stored(r, thread) == Some(C.Entry(incoming, now)) && r.correlationId == s.correlationId
    ensures a.isCache && present && incoming == CachedValue(s, thread) ==>
              Refreshed(s, r, thread, now) && r.correlationId == incoming
    ensures a.isCache && present && incoming.Some? ==> CachedValue(r, thread) == incoming
    ensures a.isCache && !present && CachedValue(s, thread).None? ==>
              Stored(r, thread) == Some(C.Entry(Some(newId), now)) && r.correlationId == s.correlationId
    ensures a.isCache && !present && CachedValue(s, thread).Some? ==>
              && Refreshed(s, r, thread, now)
              && r.correlationId == (if s.correlationId.None? then Some(newId) else s.correlationId)
  {
    if !a.isCache then s
    else
      var read := C.Get(s.cache.value, thread, now);
      var cached := OrNull(read.value);
      if present then
        if incoming != cached then s.(cache := Some(C.Put(read.cache, thread, incoming, now)))
        else s.(cache := Some(read.cache), correlationId := incoming)
      else if cached.None? then s.(cache := Some(C.Put(read.cache, thread, Some(newId), now)))
      else if s.correlationId.None? then s.(cache := Some(read.cache), correlationId := Some(newId))
      else s.(cache := Some(read.cache))
  }

  /** The correlation field `getLog` emits (None: no field) and the shared cells after it. */
  datatype Emission = Emission(shared: Shared, field: Option<Value>)

  /**
   The correlation id `getLog` emits: none without correlation; the thread's
   cached value (read, so refreshed) for a caching appender; the shared
   `CorrelationId` otherwise.
   */
  function EmitCorrelation(a: Appender, s: Shared, thread: Long, now: Long): (e: Emission)
    requires Consistent(a, s)
    ensures Consistent(a, e.shared)
    ensures e.shared.correlationId == s.correlationId
    ensures !a.includeCorrelation ==> e.field.None? && e.shared == s
    ensures a.includeCorrelation && a.isCache ==>
              && e.field == Some(CachedValue(s, thread))
              && OnlyThreadChanged(s, e.shared, thread)
              && Refreshed(s, e.shared, thread, now)
    ensures a.includeCorrelation && !a.isCache ==> e.field == Some(s.correlationId) && e.shared == s
  {
    if !a.includeCorrelation then Emission(s, None)
    else if a.isCache then
      var read := C.Get(s.cache.value, thread, now);
      Emission(s.(cache := Some(read.cache)), Some(OrNull(read.value)))
    else Emission(s, Some(s.correlationId))
  }

  /** The context key is copied into the fields: it is not "correlationid" ignoring case. */
  predicate Copied(key: string, cc: CharClass)
  {
    !EqualsIgnoreCase(key, SkippedContextKey, cc)
  }

  /** `order` lists every key of `context` exactly once: an iteration order of the map. */
  ghost predicate IterationOrder(order: seq<string>, context: map<string, Value>)
  {
    && (forall i :: 0 <= i < |order| ==> order[i] in context)
    && (forall k :: k in context ==> k in order)
    && (forall i, j :: 0 <= i < j < |order| ==> order[i] != order[j])
  }

  /** Some copied key in `order` is turned into the field name `field`. */
  ghost predicate ProducedBy(order: seq<string>, field: string, cc: CharClass)
  {
    exists i :: 0 <= i < |order| && Copied(order[i], cc) && PascalKey(order[i], cc) == field
  }

  /** The copied key at `i` is the last one in `order` to produce its field name. */
  ghost predicate LastProducerAt(order: seq<string>, i: int, cc: CharClass)
    requires 0 <= i < |order|
  {
    && Copied(order[i], cc)
    && forall j :: i < j < |order| && Copied(order[j], cc) ==> PascalKey(order[j], cc) != PascalKey(order[i], cc)
  }

  /**
   `r` is `fields` after copying the context keys in `order`: it keeps every
   field, gains the name of every copied key, holds under each name the value
   of the last key producing it, and leaves every field no key produces alone.
   */
  ghost predicate CopiedInto(fields: map<string, Value>, context: map<string, Value>, order: seq<string>,
                             cc: CharClass, r: map<string, Value>)
    requires forall i :: 0 <= i < |order| ==> order[i] in context
  {
    && (forall f :: f in fields ==> f in r)
    && (forall i :: 0 <= i < |order| && Copied(order[i], cc) ==> PascalKey(order[i], cc) in r)
    && (forall f :: f in r ==> f in fields || ProducedBy(order, f, cc))
    && (forall f :: f in fields && !ProducedBy(order, f, cc) ==> r[f] == fields[f])
    && (forall i :: 0 <= i < |order| && LastProducerAt(order, i, cc) ==> r[PascalKey(order[i], cc)] == context[order[i]])
  }

  /** One iteration of the copy loop: a copied key puts its value under its Pascal-case name. */
  function CopyStep(m: map<string, Value>, context: map<string, Value>, key: string, cc: CharClass): map<string, Value>
    requires key in context
  {
    if Copied(key, cc) then m[PascalKey(key, cc) := context[key]] else m
  }

  /**
   The loop of `getLog` over the context: in iteration order, each copied key
   puts its value under its Pascal-case name.
   */
  function CopyContext(fields: map<string, Value>, context: map<string, Value>, order: seq<string>,
                       cc: CharClass): (r: map<string, Value>)
    requires forall i :: 0 <= i < |order| ==> order[i] in context
    ensures forall f :: f in fields ==> f in r
    ensures forall i :: 0 <= i < |order| && Copied(order[i], cc) ==> PascalKey(order[i], cc) in r
    ensures forall f :: f in r ==> f in fields || ProducedBy(order, f, cc)
    ensures forall f :: f in fields && !ProducedBy(order, f, cc) ==> r[f] == fields[f]
    ensures forall i :: 0 <= i < |order| && LastProducerAt(order, i, cc) ==> r[PascalKey(order[i], cc)] == context[order[i]]
    decreases |order|
  {
    if |order| == 0 then fields
    else
      var m := CopyContext(fields, context, order[..|order| - 1], cc);
      CopyOneMore(fields, context, order, cc, m);
      CopyStep(m, context, order[|order| - 1], cc)
  }

  /** Copying one more context key extends what the copy of the earlier keys established. */
  lemma CopyOneMore(fields: map<string, Value>, context: map<string, Value>, order: seq<string>,
                    cc: CharClass, m: map<string, Value>)
    requires |order| > 0
    requires forall i :: 0 <= i < |order| ==> order[i] in context
    requires CopiedInto(fields, context, order[..|order| - 1], cc, m)
    ensures CopiedInto(fields, context, order, cc, CopyStep(m, context, order[|order| - 1], cc))
  {
    ProducersOfPrefix(order, cc);
    CopyKeepsNames(fields, context, order, cc, m);
    CopyKeepsUnproduced(fields, context, order, cc, m);
    CopyLastValues(fields, context, order, cc, m);
  }

  /** A field produced by a prefix of `order` is produced by `order`, and so is the last key's field. */
  lemma ProducersOfPrefix(order: seq<string>, cc: CharClass)
    requires |order| > 0
    ensures forall f :: ProducedBy(order[..|order| - 1], f, cc) ==> ProducedBy(order, f, cc)
    ensures Copied(order[|order| - 1], cc) ==> ProducedBy(order, PascalKey(order[|order| - 1], cc), cc)
  {
    var init := order[..|order| - 1];
    forall f | ProducedBy(init, f, cc)
      ensures ProducedBy(order, f, cc)
    {
      var i :| 0 <= i < |init| && Copied(init[i], cc) && PascalKey(init[i], cc) == f;
      assert order[i] == init[i];
    }
    var n := |order| - 1;
    assert Copied(order[n], cc) ==> ProducedBy(order, PascalKey(order[n], cc), cc);
  }

  /** One more copy keeps every field name, gains the last key's name and gains nothing else. */
  lemma CopyKeepsNames(fields: map<string, Value>, context: map<string, Value>, order: seq<string>,
                       cc: CharClass, m: map<string, Value>)
    requires |order| > 0
    requires forall i :: 0 <= i < |order| ==> order[i] in context
    requires CopiedInto(fields, context, order[..|order| - 1], cc, m)
    requires forall f :: ProducedBy(order[..|order| - 1], f, cc) ==> ProducedBy(order, f, cc)
    requires Copied(order[|order| - 1], cc) ==> ProducedBy(order, PascalKey(order[|order| - 1], cc), cc)
    ensures var r := CopyStep(m, context, order[|order| - 1], cc);
            && (forall f :: f in fields ==> f in r)
            && (forall i :: 0 <= i < |order| && Copied(order[i], cc) ==> PascalKey(order[i], cc) in r)
            && (forall f :: f in r ==> f in fields || ProducedBy(order, f, cc))
  {
    var init := order[..|order| - 1];
    forall i | 0 <= i < |order| - 1
      ensures order[i] == init[i]
    {
    }
  }

  /** The fields no key produces keep their values through one more copy. */
  lemma CopyKeepsUnproduced(fields: map<string, Value>, context: map<string, Value>, order: seq<string>,
                            cc: CharClass, m: map<string, Value>)
    requires |order| > 0
    requires forall i :: 0 <= i < |order| ==> order[i] in context
    requires CopiedInto(fields, context, order[..|order| - 1], cc, m)
    requires forall f :: ProducedBy(order[..|order| - 1], f, cc) ==> ProducedBy(order, f, cc)
    requires Copied(order[|order| - 1], cc) ==> ProducedBy(order, PascalKey(order[|order| - 1], cc), cc)
    ensures var r := CopyStep(m, context, order[|order| - 1], cc);
            forall f :: f in fields && !ProducedBy(order, f, cc) ==> r[f] == fields[f]
  {
  }

  /** After one more copy, each name holds the value of the last key producing it. */
  lemma CopyLastValues(fields: map<string, Value>, context: map<string, Value>, order: seq<string>,
                       cc: CharClass, m: map<string, Value>)
    requires |order| > 0
    requires forall i :: 0 <= i < |order| ==> order[i] in context
    requires CopiedInto(fields, context, order[..|order| - 1], cc, m)
    ensures var r := CopyStep(m, context, order[|order| - 1], cc);
            forall i :: 0 <= i < |order| && LastProducerAt(order, i, cc) ==>
              PascalKey(order[i], cc) in r && r[PascalKey(order[i], cc)] == context[order[i]]
  {
    var init := order[..|order| - 1];
    var n := |order| - 1;
    var r := CopyStep(m, context, order[n], cc);
    assert forall j :: 0 <= j < n ==> init[j] == order[j];
    forall i | 0 <= i < n && LastProducerAt(order, i, cc)
      ensures PascalKey(order[i], cc) in r && r[PascalKey(order[i], cc)] == context[order[i]]
    {
      assert LastProducerAt(init, i, cc);
      assert PascalKey(init[i], cc) in m && m[PascalKey(init[i], cc)] == context[init[i]];
      LaterKeyDiffers(order, i, cc);
    }
  }

  /** A last producer's name differs from the name of the final key, when that key is copied. */
  lemma LaterKeyDiffers(order: seq<string>, i: int, cc: CharClass)
    requires 0 <= i < |order| - 1
    requires LastProducerAt(order, i, cc)
    ensures Copied(order[|order| - 1], cc) ==> PascalKey(order[|order| - 1], cc) != PascalKey(order[i], cc)
  {
  }

  /** The fields `getLog` builds for one event, and the shared cells after its cache read. */
  datatype Fields = Fields(shared: Shared, fields: map<string, Value>)

  /**
   The correlation and context part of `getLog`, starting from the appender's
   configured properties: the correlation field first, then the context copy.
   */
  function EventFields(a: Appender, s: Shared, ev: Event, order: seq<string>, now: Long, cc: CharClass): (r: Fields)
    requires Consistent(a, s)
    requires IterationOrder(order, ev.context)
    ensures r.shared == EmitCorrelation(a, s, ev.threadId, now).shared
    ensures forall f :: f in r.fields ==>
              || f in a.properties
              || (a.includeCorrelation && f == CorrelationIdField)
              || ProducedBy(order, f, cc)
    ensures forall k :: k in ev.context && Copied(k, cc) ==> PascalKey(k, cc) in r.fields
    ensures forall f :: f in a.properties ==> f in r.fields
    ensures forall f :: (f in a.properties && !ProducedBy(order, f, cc)
              && !(a.includeCorrelation && f == CorrelationIdField)) ==> r.fields[f] == a.properties[f]
    ensures a.includeCorrelation && !ProducedBy(order, CorrelationIdField, cc) ==>
              && CorrelationIdField in r.fields
              && Some(r.fields[CorrelationIdField]) == EmitCorrelation(a, s, ev.threadId, now).field
    ensures forall i :: 0 <= i < |order| && LastProducerAt(order, i, cc) ==>
              r.fields[PascalKey(order[i], cc)] == ev.context[order[i]]
  {
    var e := EmitCorrelation(a, s, ev.threadId, now);
    var withId := if e.field.Some? then a.properties[CorrelationIdField := e.field.value] else a.properties;
    assert forall f :: f in a.properties ==> f in withId;
    assert forall f :: f in a.properties && !(a.includeCorrelation && f == CorrelationIdField) ==> withId[f] == a.properties[f];
    Fields(e.shared, CopyContext(withId, ev.context, order, cc))
  }

  /** What one `getLog` call leaves behind: the appender, the shared cells and the emitted fields. */
  datatype LogOutcome = LogOutcome(appender: Appender, shared: Shared, fields: map<string, Value>)

  /**
   `getLog` as written: the event's property map is the appender's own
   `Properties` map, so the fields put for this event stay in the appender and
   reappear in every later event.
   */
  function GetLogAsWritten(a: Appender, s: Shared, ev: Event, order: seq<string>, now: Long, cc: CharClass): (r: LogOutcome)
    requires Consistent(a, s)
    requires IterationOrder(order, ev.context)
    ensures r.fields == r.appender.properties
    ensures r.appender == a.(properties := r.fields)
    ensures Consistent(r.appender, r.shared)
    ensures forall k :: k in ev.context && Copied(k, cc) ==> PascalKey(k, cc) in r.appender.properties
  {
    var f := EventFields(a, s, ev, order, now, cc);
    LogOutcome(a.(properties := f.fields), f.shared, f.fields)
  }

  /**
   `getLog` with the evidently intended behaviour: the configured properties
   are copied into the event, so the appender itself does not change.
   */
  function GetLog(a: Appender, s: Shared, ev: Event, order: seq<string>, now: Long, cc: CharClass): (r: LogOutcome)
    requires Consistent(a, s)
    requires IterationOrder(order, ev.context)
    ensures r.appender == a
    ensures Consistent(a, r.shared)
    ensures forall f :: f in r.fields ==>
              || f in a.properties
              || (a.includeCorrelation && f == CorrelationIdField)
              || ProducedBy(order, f, cc)
    ensures forall f :: f in a.properties ==> f in r.fields
    ensures forall k :: k in ev.context && Copied(k, cc) ==> PascalKey(k, cc) in r.fields
    ensures forall f :: (f in a.properties && !ProducedBy(order, f, cc)
              && !(a.includeCorrelation && f == CorrelationIdField)) ==> r.fields[f] == a.properties[f]
  {
    var f := EventFields(a, s, ev, order, now, cc);
    LogOutcome(a, f.shared, f.fields)
  }

  /**
   `append` without its HTTP exchange, as written. The exchange enters only
   through two outcomes: `urlOk` says whether building the URL and opening the
   connection succeeded, and `connected` whether obtaining the output stream
   did. Either failure raises an `IOException` that `append` catches. The
   first skips everything, including the correlation policy. The second skips
   only `getLog`. When both succeed, the correlation property is looked up
   ignoring case, its value is fetched by exact key, the policy is applied,
   and the fields are built with `getLog` as written, which leaves them in the
   appender's own map. `fields` is None when no event was built.
   */
  method Append(a: Appender, s: Shared, ev: Event, order: seq<string>, now: Long, newId: Ref, cc: CharClass,
                urlOk: bool, connected: bool)
    returns (a': Appender, s': Shared, fields: Option<map<string, Value>>)
    requires Consistent(a, s)
    requires IterationOrder(order, ev.context)
    ensures Consistent(a', s')
    ensures !urlOk ==> a' == a && s' == s && fields.None?
    ensures urlOk && !connected ==> a' == a && fields.None?
    ensures urlOk && connected ==> fields.Some? && a' == a.(properties := fields.value)
    ensures fields.Some? ==> forall f :: f in a.properties ==> f in fields.value
    ensures fields.Some? ==> forall k :: k in ev.context && Copied(k, cc) ==> PascalKey(k, cc) in a'.properties
    ensures !a.includeCorrelation ==> s' == s
    ensures a.isCache ==> OnlyThreadChanged(s, s', ev.threadId)
    ensures urlOk && a.isCache && ContextGet(ev.context, a.correlationProperty).Some? ==>
              && CachedValue(s', ev.threadId) == ContextGet(ev.context, a.correlationProperty)
              && (fields.Some? && !ProducedBy(order, CorrelationIdField, cc) ==>
                    && CorrelationIdField in fields.value
                    && fields.value[CorrelationIdField] == ContextGet(ev.context, a.correlationProperty))
    ensures urlOk && a.isCache && !ContainsKeyIgnoringCase(ev.context, a.correlationProperty, cc)
              && CachedValue(s, ev.threadId).Some? ==>
              && CachedValue(s', ev.threadId) == CachedValue(s, ev.threadId)
              && (fields.Some? && !ProducedBy(order, CorrelationIdField, cc) ==>
                    && CorrelationIdField in fields.value
                    && fields.value[CorrelationIdField] == CachedValue(s, ev.threadId))
  {
    a', s', fields := a, s, None;
    if !urlOk {
      return;
    }
    if a.includeCorrelation {
      var present := HasKey(ev.context, a.correlationProperty, cc);
      s' := Correlate(a, s, ev.threadId, present, ContextGet(ev.context, a.correlationProperty), now, newId);
    }
    if !connected {
      return;
    }
    var log := GetLogAsWritten(a, s', ev, order, now, cc);
    a', s', fields := log.appender, log.shared, Some(log.fields);
  }

  /**
   `append` with the corrected `getLog`, under the same two outcomes of the
   HTTP exchange: the same correlation results, but the appender is left
   unchanged and every field comes from the configuration, the correlation id
   or this event's context.
   */
  method AppendCorrected(a: Appender, s: Shared, ev: Event, order: seq<string>, now: Long, newId: Ref, cc: CharClass,
                         urlOk: bool, connected: bool)
    returns (s': Shared, fields: Option<map<string, Value>>)
    requires Consistent(a, s)
    requires IterationOrder(order, ev.context)
    ensures Consistent(a, s')
    ensures !urlOk ==> s' == s && fields.None?
    ensures fields.Some? <==> urlOk && connected
    ensures fields.Some? ==> forall f :: f in fields.value ==>
              || f in a.properties
              || (a.includeCorrelation && f == CorrelationIdField)
              || ProducedBy(order, f, cc)
    ensures fields.Some? ==> forall f :: f in a.properties ==> f in fields.value
    ensures fields.Some? ==> forall k :: k in ev.context && Copied(k, cc) ==> PascalKey(k, cc) in fields.value
    ensures fields.Some? ==> forall f :: (f in a.properties && !ProducedBy(order, f, cc)
              && !(a.includeCorrelation && f == CorrelationIdField)) ==> fields.value[f] == a.properties[f]
    ensures !a.includeCorrelation ==> s' == s
    ensures a.isCache ==> OnlyThreadChanged(s, s', ev.threadId)
    ensures urlOk && a.isCache && ContextGet(ev.context, a.correlationProperty).Some? ==>
              && CachedValue(s', ev.threadId) == ContextGet(ev.context, a.correlationProperty)
              && (fields.Some? && !ProducedBy(order, CorrelationIdField, cc) ==>
                    && CorrelationIdField in fields.value
                    && fields.value[CorrelationIdField] == ContextGet(ev.context, a.correlationProperty))
    ensures urlOk && a.isCache && !ContainsKeyIgnoringCase(ev.context, a.correlationProperty, cc)
              && CachedValue(s, ev.threadId).Some? ==>
              && CachedValue(s', ev.threadId) == CachedValue(s, ev.threadId)
              && (fields.Some? && !ProducedBy(order, CorrelationIdField, cc) ==>
                    && CorrelationIdField in fields.value
                    && fields.value[CorrelationIdField] == CachedValue(s, ev.threadId))
  {
    s', fields := s, None;
    if !urlOk {
      return;
    }
    if a.includeCorrelation {
      var present := HasKey(ev.context, a.correlationProperty, cc);
      s' := Correlate(a, s, ev.threadId, present, ContextGet(ev.context, a.correlationProperty), now, newId);
    }
    if !connected {
      return;
    }
    var log := GetLog(a, s', ev, order, now, cc);
    s', fields := log.shared, Some(log.fields);
  }
}

=== FILE: seq_appender_cache.dfy ===
/**
 The time-to-live correlation cache: a map from key to an entry holding a
 value and the millisecond instant it was last written or read. Entries whose
 last access is older than the time-to-live are evicted by `Cleanup`.

 The clock is an explicit `now` argument, so every operation is a pure
 transformer of an immutable `Cache` value.
 */
module SeqAppenderCache {
  import opened Wrappers
  import opened JavaInts

  /** Milliseconds per second: the constructor's time-to-live is given in seconds. */
  const MillisPerSecond: int := 1000

  /** One cached value with the instant (in ms) it was put or last read. */
  datatype Entry<T> = Entry(value: T, lastAccessed: Long)

  /**
   A cache: the time-to-live in milliseconds, whether the constructor started
   the background sweeper thread, and the entries.
   */
  datatype Cache<K, T> = Cache(timeToLive: Long, sweeperStarted: bool, entries: map<K, Entry<T>>)

  /** The result of a read: the cache after the access-time refresh, and the value found. */
  datatype Read<K, T> = Read(cache: Cache<K, T>, value: Option<T>)

  /** The two caches agree on configuration and on every key other than `key`. */
  ghost predicate SameExcept<K, T>(c: Cache<K, T>, c': Cache<K, T>, key: K)
  {
    && c'.timeToLive == c.timeToLive
    && c'.sweeperStarted == c.sweeperStarted
    && (forall k :: k in c.entries && k != key ==> k in c'.entries && c'.entries[k] == c.entries[k])
    && (forall k :: k in c'.entries && k != key ==> k in c.entries)
  }

  /**
   The eviction test of a sweep: `now` lies strictly beyond the entry's last
   access plus the time-to-live, the sum computed in `long` arithmetic.
   */
  predicate Expired<K, T>(c: Cache<K, T>, e: Entry<T>, now: Long)
  {
    now > AddLong(c.timeToLive, e.lastAccessed)
  }

  /**
   A new, empty cache. The time-to-live is converted to milliseconds with a
   `long` multiplication; the sweeper runs only when both the time-to-live and
   the sweep interval (in seconds) are positive.
   */
  function New<K, T>(timeToLive: Long, timerInterval: Long): (c: Cache<K, T>)
    ensures |c.entries| == 0
    ensures c.sweeperStarted <==> timeToLive > 0 && timerInterval > 0
    ensures -(MaxLong / 1000) <= timeToLive <= MaxLong / 1000 ==> c.timeToLive == timeToLive * 1000
  {
    Cache(WrapLong(timeToLive * MillisPerSecond), timeToLive > 0 && timerInterval > 0, map[])
  }

  /** Stores `value` under `key` in a fresh entry stamped `now`, replacing any previous entry. */
  function Put<K, T>(c: Cache<K, T>, key: K, value: T, now: Long): (r: Cache<K, T>)
    ensures SameExcept(c, r, key)
    ensures key in r.entries && r.entries[key].value == value && r.entries[key].lastAccessed == now
  {
    c.(entries := c.entries[key := Entry(value, now)])
  }

  /**
   Looks `key` up. A miss returns None and leaves the cache as it was; a hit
   returns the stored value and moves that entry's last access to `now`.
   */
  function Get<K, T>(c: Cache<K, T>, key: K, now: Long): (r: Read<K, T>)
    ensures SameExcept(c, r.cache, key)
    ensures key in r.cache.entries <==> key in c.entries
    ensures key !in c.entries ==> r.value == None && r.cache == c
    ensures key in c.entries ==>
              && r.value == Some(c.entries[key].value)
              && r.cache.entries[key].value == c.entries[key].value
              && r.cache.entries[key].lastAccessed == now
  {
    if key !in c.entries then Read(c, None)
    else
      var e := c.entries[key];
      Read(c.(entries := c.entries[key := e.(lastAccessed := now)]), Some(e.value))
  }

  /** Deletes the entry for `key`, if there is one. */
  function Remove<K, T>(c: Cache<K, T>, key: K): (r: Cache<K, T>)
    ensures SameExcept(c, r, key)
    ensures key !in r.entries
  {
    c.(entries := c.entries - {key})
  }

  /** The number of entries, clamped to the largest Java `int` as a concurrent hash map reports it. */
  function Size<K, T>(c: Cache<K, T>): (n: Int)
    ensures 0 <= n <= |c.entries|
    ensures |c.entries| <= MaxInt ==> n == |c.entries|
    ensures |c.entries| > MaxInt ==> n == MaxInt
  {
    if |c.entries| <= MaxInt then |c.entries| else MaxInt
  }

  /**
   One sweep at instant `now`: every expired entry is removed and every other
   entry is kept exactly as it was. The sign of the time-to-live is not
   consulted here.
   */
  function Cleanup<K, T>(c: Cache<K, T>, now: Long): (r: Cache<K, T>)
    ensures r.timeToLive == c.timeToLive && r.sweeperStarted == c.sweeperStarted
    ensures forall k :: k in c.entries && !Expired(c, c.entries[k], now) ==> k in r.entries
    ensures forall k :: k in r.entries ==> k in c.entries && !Expired(c, c.entries[k], now)
    ensures forall k :: k in r.entries ==> r.entries[k] == c.entries[k]
  {
    c.(entries := map k | k in c.entries && !Expired(c, c.entries[k], now) :: c.entries[k])
  }

  /**
   One wake-up of the background sweeper thread, which exists only if the
   constructor started it: an entry is evicted exactly when the thread runs and
   the entry is expired, and every other entry is kept as it was.
   */
  function SweeperTick<K, T>(c: Cache<K, T>, now: Long): (r: Cache<K, T>)
    ensures r.timeToLive == c.timeToLive && r.sweeperStarted == c.sweeperStarted
    ensures forall k :: k in r.entries ==> k in c.entries && !(c.sweeperStarted && Expired(c, c.entries[k], now))
    ensures forall k :: k in c.entries && !(c.sweeperStarted && Expired(c, c.entries[k], now)) ==> k in r.entries
    ensures forall k :: k in r.entries ==> r.entries[k] == c.entries[k]
  {
    if c.sweeperStarted then Cleanup(c, now) else c
  }

  /** The first pass of a sweep: the keys of the expired entries, collected into a list. */
  method CollectExpired<K, T>(c: Cache<K, T>, now: Long) returns (deleteKey: seq<K>)
    ensures forall k :: k in deleteKey <==> k in c.entries && Expired(c, c.entries[k], now)
  {
    var pending := c.entries.Keys;
    deleteKey := [];
    while pending != {}
      invariant pending <= c.entries.Keys
      invariant forall k :: k in deleteKey ==> k in c.entries && k !in pending && Expired(c, c.entries[k], now)
      invariant forall k :: k in c.entries && k !in pending && Expired(c, c.entries[k], now) ==> k in deleteKey
      decreases pending
    {
      var k :| k in pending;
      if Expired(c, c.entries[k], now) {
        deleteKey := deleteKey + [k];
      }
      pending := pending - {k};
    }
  }

  /** The second pass of a sweep: every listed key is removed, and every other entry is kept. */
  method RemoveKeys<K, V>(entries: map<K, V>, deleteKey: seq<K>) returns (r: map<K, V>)
    ensures forall k :: k in r <==> k in entries && k !in deleteKey
    ensures forall k :: k in r ==> r[k] == entries[k]
  {
    r := entries;
    var i := 0;
    while i < |deleteKey|
      invariant 0 <= i <= |deleteKey|
      invariant forall k :: k in r ==> k in entries && k !in deleteKey[..i]
      invariant forall k :: k in entries && k !in deleteKey[..i] ==> k in r
      invariant forall k :: k in r ==> r[k] == entries[k]
    {
      r := r - {deleteKey[i]};
      i := i + 1;
    }
    assert deleteKey[..i] == deleteKey;
  }

  /**
   The sweep as the source performs it: a first pass over all entries collects
   the keys of expired entries into a list, and a second pass removes them.
   */
  method CleanupInTwoPasses<K, T>(c: Cache<K, T>, now: Long) returns (r: Cache<K, T>)
    ensures r == Cleanup(c, now)
  {
    var deleteKey := CollectExpired(c, now);
    var entries := RemoveKeys(c.entries, deleteKey);
    r := c.(entries := entries);
    assert r.entries == Cleanup(c, now).entries;
  }
}

=== FILE: seq_appender_cache_properties.dfy ===
/**
 Properties of the time-to-live cache that relate several operations: round
 trips, removal, the exact effect and idempotence of a sweep, refresh on
 read, and the expiry deadline of the background sweeper.
 */
module SeqAppenderCacheProperties {
  import opened Wrappers
  import opened JavaInts
  import opened SeqAppenderCache

  /** One call a client makes on the cache, with the instant the call reads from the clock. */
  datatype Call<K, T> =
    | PutCall(key: K, value: T, at: Long)
    | GetCall(key: K, at: Long)
    | RemoveCall(key: K)
    | CleanupCall(at: Long)

  /** The cache after one call. */
  function Apply<K, T>(c: Cache<K, T>, call: Call<K, T>): Cache<K, T>
  {
    match call
    case PutCall(k, v, at) => Put(c, k, v, at)
    case GetCall(k, at) => Get(c, k, at).cache
    case RemoveCall(k) => Remove(c, k)
    case CleanupCall(at) => Cleanup(c, at)
  }

  /** The cache after a sequence of calls, made in order. */
  function Run<K, T>(c: Cache<K, T>, calls: seq<Call<K, T>>): Cache<K, T>
    decreases |calls|
  {
    if |calls| == 0 then c else Run(Apply(c, calls[0]), calls[1..])
  }

  /** The call may change or drop the value stored under `key`: a put or remove of it, or any sweep. */
  ghost predicate MayDisturb<K, T>(call: Call<K, T>, key: K)
  {
    match call
    case PutCall(k, _, _) => k == key
    case GetCall(_, _) => false
    case RemoveCall(k) => k == key
    case CleanupCall(_) => true
  }

  /** Calls that neither write `key` nor sweep keep its value, whatever they do to other keys. */
  lemma {:induction false} ValueSurvivesOtherCalls<K, T>(c: Cache<K, T>, calls: seq<Call<K, T>>, key: K, v: T)
    requires key in c.entries && c.entries[key].value == v
    requires forall i :: 0 <= i < |calls| ==> !MayDisturb(calls[i], key)
    ensures key in Run(c, calls).entries && Run(c, calls).entries[key].value == v
    decreases |calls|
  {
    if |calls| > 0 {
      var c' := Apply(c, calls[0]);
      assert !MayDisturb(calls[0], key);
      assert key in c'.entries && c'.entries[key].value == v;
      ValueSurvivesOtherCalls(c', calls[1..], key, v);
    }
  }

  /**
   Round trip: after `put(key, v)`, a later `get(key)` returns `v` however many
   calls on other keys, and reads of any key, come in between.
   */
  lemma PutThenGet<K, T>(c: Cache<K, T>, key: K, v: T, t: Long, calls: seq<Call<K, T>>, now: Long)
    requires forall i :: 0 <= i < |calls| ==> !MayDisturb(calls[i], key)
    ensures Get(Run(Put(c, key, v, t), calls), key, now).value == Some(v)
  {
    ValueSurvivesOtherCalls(Put(c, key, v, t), calls, key, v);
  }

  /** A call on one key leaves every entry of every other key exactly as it was. */
  lemma CallOnOtherKeyIsInvisible<K, T>(c: Cache<K, T>, call: Call<K, T>, key: K, other: K)
    requires !call.CleanupCall? && call.key == key && other != key
    ensures other in Apply(c, call).entries <==> other in c.entries
    ensures other in c.entries ==> Apply(c, call).entries[other] == c.entries[other]
  {
  }

  /** After `remove(key)`, `get(key)` finds nothing and changes nothing. */
  lemma RemoveThenGet<K, T>(c: Cache<K, T>, key: K, now: Long)
    ensures Get(Remove(c, key), key, now).value == None
    ensures Get(Remove(c, key), key, now).cache == Remove(c, key)
  {
  }

  /**
   `put` adds one entry exactly when the key was absent, and `size()` follows
   the count until it reaches the largest Java `int`.
   */
  lemma PutSize<K, T>(c: Cache<K, T>, key: K, v: T, t: Long)
    ensures |Put(c, key, v, t).entries| == if key in c.entries then |c.entries| else |c.entries| + 1
    ensures key in c.entries ==> Size(Put(c, key, v, t)) == Size(c)
    ensures key !in c.entries && Size(c) < MaxInt ==> Size(Put(c, key, v, t)) == Size(c) + 1
    ensures Size(c) == MaxInt ==> Size(Put(c, key, v, t)) == MaxInt
  {
  }

  /**
   `remove` drops one entry exactly when the key was present; `size()` then
   drops by one unless the count was beyond the largest Java `int`.
   */
  lemma RemoveSize<K, T>(c: Cache<K, T>, key: K)
    ensures |Remove(c, key).entries| == if key in c.entries then |c.entries| - 1 else |c.entries|
    ensures key !in c.entries ==> Size(Remove(c, key)) == Size(c)
    ensures key in c.entries && |c.entries| <= MaxInt ==> Size(Remove(c, key)) == Size(c) - 1
    ensures Size(Remove(c, key)) <= Size(c)
  {
  }

  /** A sweep keeps a subset of the keys, so it never increases the size. */
  lemma CleanupNeverGrows<K, T>(c: Cache<K, T>, now: Long)
    ensures |Cleanup(c, now).entries| <= |c.entries|
    ensures Size(Cleanup(c, now)) <= Size(c)
  {
    var r := Cleanup(c, now);
    assert r.entries.Keys <= c.entries.Keys;
    SubsetCardinality(r.entries.Keys, c.entries.Keys);
  }

  lemma {:induction false} SubsetCardinality<X>(a: set<X>, b: set<X>)
    requires a <= b
    ensures |a| <= |b|
    decreases |b|
  {
    if b != {} {
      var x :| x in b;
      SubsetCardinality(a - {x}, b - {x});
    }
  }

  /** Two caches with the same configuration and the same entries are the same cache. */
  lemma SameEntries<K, T>(a: Cache<K, T>, b: Cache<K, T>)
    requires a.timeToLive == b.timeToLive && a.sweeperStarted == b.sweeperStarted
    requires forall k :: k in a.entries <==> k in b.entries
    requires forall k :: k in a.entries ==> a.entries[k] == b.entries[k]
    ensures a == b
  {
    assert a.entries == b.entries;
  }

  /** Sweeping twice at the same instant removes nothing more: the sweep is idempotent. */
  lemma CleanupIdempotent<K, T>(c: Cache<K, T>, now: Long)
    ensures Cleanup(Cleanup(c, now), now) == Cleanup(c, now)
  {
    LaterCleanupSubsumes(c, now, now);
  }

  /** A sweep at a later instant subsumes an earlier one. */
  lemma LaterCleanupSubsumes<K, T>(c: Cache<K, T>, earlier: Long, later: Long)
    requires earlier <= later
    ensures Cleanup(Cleanup(c, earlier), later) == Cleanup(c, later)
  {
    var once := Cleanup(c, earlier);
    var a := Cleanup(once, later);
    var b := Cleanup(c, later);
    forall k | k in b.entries
      ensures k in a.entries && a.entries[k] == b.entries[k]
    {
      assert !Expired(c, c.entries[k], later);
      assert !Expired(c, c.entries[k], earlier);
      assert k in once.entries;
    }
    forall k | k in a.entries
      ensures k in b.entries
    {
      assert k in once.entries && once.entries[k] == c.entries[k];
    }
    SameEntries(a, b);
  }

  /**
   The eviction test is strict: an entry whose age equals the time-to-live
   exactly survives the sweep, and one a millisecond older is removed.
   */
  lemma EvictionBoundary<K, T>(c: Cache<K, T>, key: K, now: Long)
    requires key in c.entries
    requires MinLong <= c.timeToLive + c.entries[key].lastAccessed < MaxLong
    ensures now == c.timeToLive + c.entries[key].lastAccessed ==> key in Cleanup(c, now).entries
    ensures now == c.timeToLive + c.entries[key].lastAccessed + 1 ==> key !in Cleanup(c, now).entries
  {
  }

  /**
   Refresh on read: an entry read at instant `g` survives every sweep up to
   `g` plus the time-to-live, keeping its value.
   */
  lemma ReadKeepsAlive<K, T>(c: Cache<K, T>, key: K, g: Long, now: Long)
    requires key in c.entries
    requires MinLong <= c.timeToLive + g <= MaxLong
    requires now <= c.timeToLive + g
    ensures key in Cleanup(Get(c, key, g).cache, now).entries
    ensures Cleanup(Get(c, key, g).cache, now).entries[key].value == c.entries[key].value
  {
  }

  /**
   The number of the first wake-up strictly after `deadline` of a sweeper
   that started at `start` and wakes every `period` milliseconds, its n-th
   wake-up falling at `start + n * period`.
   */
  function FirstWakeUpAfter(start: int, period: int, deadline: int): (n: nat)
    requires period > 0 && start <= deadline
    ensures deadline < start + n * period <= deadline + period
    ensures n > 0 ==> start + (n - 1) * period <= deadline
  {
    var q := (deadline - start) / period;
    var r := (deadline - start) % period;
    assert deadline - start == period * q + r && 0 <= r < period;
    assert (q + 1) * period == period * q + period;
    q + 1
  }

  /**
   Expiry deadline: with the sweeper running every `interval` seconds, an
   entry last accessed at `t` is gone after the first wake-up past `t` plus the
   time-to-live, which comes at most one interval later.
   */
  lemma ExpiredByNextWakeUp<K, T>(c: Cache<K, T>, key: K, start: int, interval: int)
    requires c.sweeperStarted && interval > 0
    requires key in c.entries
    requires start <= c.timeToLive + c.entries[key].lastAccessed
    requires c.timeToLive + c.entries[key].lastAccessed + interval * 1000 <= MaxLong
    requires MinLong <= c.timeToLive + c.entries[key].lastAccessed
    ensures var deadline := c.timeToLive + c.entries[key].lastAccessed;
            var w := start + FirstWakeUpAfter(start, interval * 1000, deadline) * (interval * 1000);
            MinLong <= w <= MaxLong && key !in SweeperTick(c, w).entries
  {
  }

  /**
   The scenario of a cache built with a two-second time-to-live and sweep
   interval: a value put and read back at `t` is gone after a sweeper wake-up
   more than two seconds later, and still there at one within two seconds.
   */
  lemma TwoSecondScenario<K, T>(key: K, v: T, t: Long, late: Long, early: Long)
    requires t + 2000 < late
    requires t <= early <= t + 2000
    ensures var c := Get(Put(New<K, T>(2, 2), key, v, t), key, t);
            && c.value == Some(v)
            && Get(SweeperTick(c.cache, late), key, late).value == None
            && Get(SweeperTick(c.cache, early), key, early).value == Some(v)
  {
  }

  /** The wake-ups of a sweeper at the given instants, in order. */
  function Ticks<K, T>(c: Cache<K, T>, instants: seq<Long>): Cache<K, T>
    decreases |instants|
  {
    if |instants| == 0 then c else Ticks(SweeperTick(c, instants[0]), instants[1..])
  }

  /** Without a running sweeper nothing ever expires: the entries outlive any number of wake-ups. */
  lemma {:induction false} NoSweeperNoExpiry<K, T>(c: Cache<K, T>, instants: seq<Long>)
    requires !c.sweeperStarted
    ensures Ticks(c, instants) == c
    decreases |instants|
  {
    if |instants| > 0 {
      NoSweeperNoExpiry(SweeperTick(c, instants[0]), instants[1..]);
    }
  }

  /** A time-to-live of zero seconds starts no sweeper, so a stored value is never lost to time. */
  lemma ZeroTtlNeverExpires<K, T>(key: K, v: T, t: Long, instants: seq<Long>, now: Long)
    ensures Get(Ticks(Put(New<K, T>(0, 2), key, v, t), instants), key, now).value == Some(v)
  {
    NoSweeperNoExpiry(Put(New<K, T>(0, 2), key, v, t), instants);
  }

  /**
   An explicit sweep does not look at the sign of the time-to-live: on a cache
   whose time-to-live is zero, it removes every entry older than `now`.
   */
  lemma CleanupIgnoresDisabledTtl<K, T>(key: K, v: T, t: Long, now: Long)
    requires t < now
    ensures key !in Cleanup(Put(New<K, T>(0, 5), key, v, t), now).entries
  {
  }

  /** Within Java `int` seconds, a running sweeper always has a positive time-to-live. */
  lemma SweeperImpliesPositiveTtl<K, T>(timeToLive: Int, timerInterval: Long)
    ensures New<K, T>(timeToLive, timerInterval).sweeperStarted ==> New<K, T>(timeToLive, timerInterval).timeToLive > 0
  {
  }
}

=== FILE: seq_appender_properties.dfy ===
/**
 Properties of the appender's correlation policy across operations and
 events: what the constructor builds, which value each event ends up
 emitting, how the policy behaves over a run of events, and the leak of
 context fields between events in `getLog` as written.
 */
module SeqAppenderProperties {
  import opened Wrappers
  import opened JavaInts
  import opened JavaText
  import C = SeqAppenderCache
  import opened SeqAppender

  /**
   A caching appender's cache keeps a thread's value for its cache time: a
   positive time in seconds (600 when a negative one was configured), in
   milliseconds, with the sweeper running.
   */
  lemma ConstructedCacheSweeps(cacheTime: Int, property: Option<string>, includeCorrelation: bool,
                               properties: seq<Property>, shared: Shared)
    ensures var r := Construct(cacheTime, property, includeCorrelation, properties, shared);
            r.appender.isCache ==>
              && r.shared.cache.Some?
              && r.shared.cache.value.sweeperStarted
              && |r.shared.cache.value.entries| == 0
              && r.shared.cache.value.timeToLive == r.appender.cacheTime * 1000
              && 0 < r.shared.cache.value.timeToLive <= MaxInt * 1000
              && (cacheTime < 0 ==> r.shared.cache.value.timeToLive == 600_000)
  {
  }

  /** A key that is present exactly is also present ignoring case. */
  lemma ExactKeyIsPresent(context: map<string, Value>, key: string, cc: CharClass)
    requires key in context
    ensures ContainsKeyIgnoringCase(context, key, cc)
  {
    EqualsIgnoreCaseReflexiveSymmetric(key, key, cc);
  }

  /**
   An event that carries a non-null correlation value under the exact property
   name makes a caching appender emit that very value for the event.
   */
  lemma CarriedValueIsEmitted(a: Appender, s: Shared, thread: Long, v: Ref, now: Long, newId: Ref)
    requires Consistent(a, s) && a.isCache
    ensures var s' := Correlate(a, s, thread, true, Some(v), now, newId);
            EmitCorrelation(a, s', thread, now).field == Some(Some(v))
  {
  }

  /**
   The same correlation value carried twice in a row by one thread's events
   becomes the shared `CorrelationId` on the second event, when no sweeper
   wake-up evicts the thread's entry between the two.
   */
  lemma RepeatedCarrierBecomesShared(a: Appender, s: Shared, thread: Long, v: Ref, t1: Long, t2: Long, id1: Ref, id2: Ref)
    requires Consistent(a, s) && a.isCache
    ensures var s1 := Correlate(a, s, thread, true, Some(v), t1, id1);
            var s2 := Correlate(a, s1, thread, true, Some(v), t2, id2);
            s2.correlationId == Some(v) && CachedValue(s2, thread) == Some(v)
  {
  }

  /**
   A sweeper wake-up that finds the thread's entry expired evicts it, so the
   thread's next event without the property caches a fresh id in place of
   the one it had.
   */
  lemma IdleThreadGetsNewIdAfterEviction(a: Appender, s: Shared, thread: Long, w: Long, now: Long, newId: Ref)
    requires Consistent(a, s) && a.isCache
    requires thread in s.cache.value.entries
    requires s.cache.value.sweeperStarted
    requires C.Expired(s.cache.value, s.cache.value.entries[thread], w)
    ensures var s1 := s.(cache := Some(C.SweeperTick(s.cache.value, w)));
            && Consistent(a, s1)
            && CachedValue(s1, thread).None?
            && CachedValue(Correlate(a, s1, thread, false, None, now, newId), thread) == Some(newId)
  {
  }

  /**
   The first event of a thread without the property and without a cached
   value caches the new id, and that id is what the event emits.
   */
  lemma FirstUncarriedEventGetsNewId(a: Appender, s: Shared, thread: Long, now: Long, newId: Ref)
    requires Consistent(a, s) && a.isCache
    requires CachedValue(s, thread).None?
    ensures var s' := Correlate(a, s, thread, false, None, now, newId);
            EmitCorrelation(a, s', thread, now).field == Some(Some(newId))
  {
  }

  /**
   The asymmetry of the policy: when a thread without the property already has
   a cached value and no shared `CorrelationId` exists, the shared id becomes
   the new id, not the thread's cached value.
   */
  lemma SharedIdIsNotTheCachedId(a: Appender, s: Shared, thread: Long, now: Long, newId: Ref)
    requires Consistent(a, s) && a.isCache
    requires CachedValue(s, thread).Some? && s.correlationId.None?
    requires CachedValue(s, thread) != Some(newId)
    ensures var s' := Correlate(a, s, thread, false, None, now, newId);
            s'.correlationId == Some(newId) && s'.correlationId != CachedValue(s', thread)
  {
  }

  /** One event as the policy sees it: thread, property flag, incoming value, clock and new id. */
  datatype Step = Step(thread: Long, present: bool, incoming: Value, now: Long, newId: Ref)

  /** The shared cells after the policy handled a run of events in order. */
  function CorrelateAll(a: Appender, s: Shared, steps: seq<Step>): (r: Shared)
    requires Consistent(a, s)
    ensures Consistent(a, r)
    decreases |steps|
  {
    if |steps| == 0 then s
    else
      var st := steps[0];
      CorrelateAll(a, Correlate(a, s, st.thread, st.present, st.incoming, st.now, st.newId), steps[1..])
  }

  /**
   A thread with a cached value keeps it through any run of policy steps in
   which its own events carry no correlation property, whatever the events of
   other threads carry. The run has no sweeper wake-up in it:
   `IdleThreadGetsNewIdAfterEviction` shows that a wake-up evicting the
   thread's entry ends this.
   */
  lemma {:induction false} ThreadKeepsIdWithoutProperty(a: Appender, s: Shared, thread: Long, steps: seq<Step>)
    requires Consistent(a, s)
    requires CachedValue(s, thread).Some?
    requires forall i :: 0 <= i < |steps| && steps[i].thread == thread ==> !steps[i].present
    ensures CachedValue(CorrelateAll(a, s, steps), thread) == CachedValue(s, thread)
    decreases |steps|
  {
    if |steps| > 0 {
      var st := steps[0];
      var s1 := Correlate(a, s, st.thread, st.present, st.incoming, st.now, st.newId);
      assert CachedValue(s1, thread) == CachedValue(s, thread);
      ThreadKeepsIdWithoutProperty(a, s1, thread, steps[1..]);
    }
  }

  /**
   An appender without a cache never changes the shared cells, so every event
   emits the same shared `CorrelationId`: null, unless another appender set it.
   */
  lemma {:induction false} NonCachingNeverCorrelates(a: Appender, s: Shared, steps: seq<Step>, thread: Long, now: Long)
    requires Consistent(a, s) && a.includeCorrelation && !a.isCache
    ensures CorrelateAll(a, s, steps) == s
    ensures EmitCorrelation(a, CorrelateAll(a, s, steps), thread, now).field == Some(s.correlationId)
    decreases |steps|
  {
    if |steps| > 0 {
      NonCachingNeverCorrelates(a, s, steps[1..], thread, now);
    }
  }

  /**
   The presence test ignores case but the value is read by exact key: an event
   whose context spells the property "CorrelationId" when the appender looks
   for "correlationId" overwrites the thread's cached id with null, and the
   event is emitted with a null correlation id.
   */
  lemma CaseMismatchClearsCachedId(now: Long, newId: Ref)
    ensures var a := Appender(DefaultCorrelationProperty, true, true, 600, map[]);
            var cache := C.Cache(600_000, true, map[7 := C.Entry(Some(Ref(1)), 0)]);
            var s := Shared(Some(cache), None);
            var context := map["CorrelationId" := Some(Ref(1))];
            var present := ContainsKeyIgnoringCase(context, a.correlationProperty, Ascii);
            var incoming := ContextGet(context, a.correlationProperty);
            var s' := Correlate(a, s, 7, present, incoming, now, newId);
            && present
            && incoming.None?
            && CachedValue(s', 7).None?
            && EmitCorrelation(a, s', 7, now).field == Some(None)
  {
    AsciiIgnoreCaseExample();
    EqualsIgnoreCaseReflexiveSymmetric("CorrelationId", DefaultCorrelationProperty, Ascii);
    var context := map["CorrelationId" := Some(Ref(1))];
    assert "CorrelationId" in context;
    assert DefaultCorrelationProperty != "CorrelationId" by {
      assert DefaultCorrelationProperty[0] != "CorrelationId"[0];
    }
  }

  /**
   `getLog` as written leaks context fields between events: a field put for
   one event's context reappears in the next event, whose context is empty.
   */
  lemma GetLogAsWrittenLeaksContext(now: Long, cc: CharClass)
    ensures var a := Appender(DefaultCorrelationProperty, false, false, 0, map[]);
            var s := Shared(None, None);
            var first := Event(1, map["user" := Some(Ref(1))]);
            var second := Event(1, map[]);
            var out1 := GetLogAsWritten(a, s, first, ["user"], now, cc);
            var out2 := GetLogAsWritten(out1.appender, out1.shared, second, [], now, cc);
            && PascalKey("user", cc) in out2.fields
            && PascalKey("user", cc) !in a.properties
            && !ProducedBy([], PascalKey("user", cc), cc)
  {
    var first := Event(1, map["user" := Some(Ref(1))]);
    assert IterationOrder(["user"], first.context);
    assert Copied("user", cc);
  }

  /**
   `getLog` with the configured properties copied: over any two events, the
   second event's fields come only from the configuration, the correlation id
   and the second event's own context, and every configured property that
   neither of those overrides still holds its configured value.
   */
  lemma GetLogFieldsComeFromCurrentEvent(a: Appender, s: Shared, first: Event, order1: seq<string>,
                                         second: Event, order2: seq<string>, t1: Long, t2: Long, cc: CharClass)
    requires Consistent(a, s)
    requires IterationOrder(order1, first.context) && IterationOrder(order2, second.context)
    ensures var out1 := GetLog(a, s, first, order1, t1, cc);
            var out2 := GetLog(out1.appender, out1.shared, second, order2, t2, cc);
            && (forall f :: f in out2.fields ==>
                  || f in a.properties
                  || (a.includeCorrelation && f == CorrelationIdField)
                  || ProducedBy(order2, f, cc))
            && (forall f :: (f in a.properties && !ProducedBy(order2, f, cc)
                  && !(a.includeCorrelation && f == CorrelationIdField)) ==> out2.fields[f] == a.properties[f])
  {
  }
}

=== FILE: wrappers.dfy ===
/** The Option datatype, standing for a Java reference that may be null. */
module Wrappers {

  datatype Option<+T> = None | Some(value: T) {

    /** Returns the encapsulated value, or `default` when this is None. */
    function GetOr(default: T): (r: T)
      ensures Some? ==> r == value
      ensures None? ==> r == default
    {
      match this
      case Some(v) => v
      case None => default
    }
  }
}
